=== FILE: README.md ===
# Contextual bandit policy bookkeeping, in Dafny

This project models the discrete core of the contextual bandit policies in
`obp/policy/contextual.py`: `LogisticEpsilonGreedy`, `LogisticUCB` and
`LogisticTS`, and the per-action `MiniBatchLogisticRegression` they share.

- **Policy state** (`Policy.State`): the trial counter `n_trial`, per-action
  pull counts, per-action reward and context buffers waiting for the next
  batch refit, and one model per action. Contexts, rewards and models are
  type parameters. Refitting a model from a batch is a function passed in,
  so the L-BFGS-B optimisation stays opaque.
- **Update protocol** (`Policy.Update`, `Policy.Flush`): the
  `update_params` method all three policies copy verbatim. It bumps the
  trial counter and the pull count, then appends to the action's buffers.
  When the new trial count is a multiple of `batch_size`, it refits every
  action whose reward buffer is non-empty and clears every buffer.
- **Invariants over a run** (`Batching`): buffer alignment, the number of
  buffered observations against `n_trial % batch_size`, exact pull counts
  after a replay, and preservation of any model property that refitting
  preserves.
- **Selection** (`Selection`): the cold-start gate (random slates while any
  action has never been pulled), epsilon-greedy's `u > epsilon` branch, the
  UCB score, and the top-k ranking `argpartition` + `argsort`
  (`Ranking.TopK`). Scores and the generator's outcomes (the uniform draw
  `u` and the without-replacement slate) are parameters.
- **Precision bookkeeping** (`Logistic`, `Lifetime`): the prior `q = lambda_`
  in every coordinate, the update `q += sum_j P_j (1 - P_j) x_j^2` with each
  `P_j` an opaque value in (0, 1), what it means for the UCB confidence
  width, and that the precision stays positive over a policy's lifetime.

Where the code and its documentation disagree, the model follows the code:

- Action indices follow Python and numpy indexing. An index in `[-n, 0)`
  names action `n + index` (`Policy.Resolve`). Only indices outside
  `[-n, n)` raise. The exception is raised after `n_trial` has already been
  incremented, and `Policy.Update` returns that partially updated state.
- `batch_size = 0` raises `ZeroDivisionError` at the modulus, after the
  count and the buffers have changed. This is modelled the same way.
- `epsilon` is not validated. The class-body asserts check only the default
  value, so no configuration error is modelled.
- `initialize` restores counters and buffers but keeps the models.
- On the exploitation path numpy's `argpartition(-score, len_list)` needs
  `len_list < n_actions`. With `len_list == n_actions` it raises, which
  `Selection.Rank` models as `KthOutOfBounds`. `choice(..., replace=False)`
  with `len_list > n_actions`, and `min()` of an empty count array, are
  modelled as errors too.
- Ties in the ranking are broken by numpy's unstable sort. The contract
  (`Ranking.IsTopK`) admits any tie order. `Ranking.TopKScoresDetermined`
  shows that all admissible answers carry the same scores position by
  position. The executable `Ranking.TopK` breaks ties by lowest index.

## Model

| member | source | states |
|---|---|---|
| Policy.Construct | obp/policy/contextual.py:59-66 | a fresh policy has one zero count, two empty buffers and one prior model per action, and is in the cold start exactly when it has an action |
| Policy.Initialize | obp/policy/contextual.py:68-74 | `initialize` zeroes the trial counter and every count, empties every buffer, puts selection back into the cold start, and leaves the model list unchanged |
| Policy.Resolve | obp/policy/contextual.py:180-182 | an action index resolves exactly when it lies in [-n, n), always to an action below n, and an index in [0, n) names itself |
| Policy.ResolveCongruent | obp/policy/contextual.py:180-182 | a resolved index names the action congruent to it modulo n, so a negative index counts from the end |
| Policy.RefitPrefix | obp/policy/contextual.py:184-187 | the refit loop changes a model exactly when its reward buffer is non-empty, refits it from exactly that action's buffers, and calls `fit` in increasing action order |
| Policy.Flush | obp/policy/contextual.py:183-189 | at a batch boundary every action with buffered rewards is refit from its buffers, the others keep their model, and afterwards every buffer is empty; counts and trial counter are untouched |
| Policy.Update | obp/policy/contextual.py:179-189 | the trial counter rises by one even when the call raises; the resolved action alone gains one pull; off a boundary the observation is appended to that action's buffers only and no model changes; on a boundary the models refit are exactly the resolved action and those with buffered data, and all buffers end empty; an unresolvable index raises `IndexError` with only the trial counter moved, and an in-range index with a zero batch size raises `ZeroDivisionError` after the count and buffers have changed |
| Batching.ConstructConsistent | obp/policy/contextual.py:64-66 | a construction satisfies "buffered total equals n_trial mod batch_size" exactly when its `n_trial` is a multiple of the batch size, and always satisfies the bound "buffered total at most n_trial mod batch_size" |
| Batching.InitializeConsistent | obp/policy/contextual.py:68-74 | after `initialize` the buffered total equals n_trial mod batch_size for every batch size |
| Batching.UpdateKeepsInvariants | obp/policy/contextual.py:179-189 | an in-range update never raises for a positive batch size and preserves buffer alignment and both the exact and the bounded buffer-count invariants |
| Batching.Replay | obp/policy/contextual.py:179-189 | feeding observations one by one to `update_params` keeps the state well formed with the same actions and advances the trial counter by their number (that no step raises is `Batching.UpdateKeepsInvariants`) |
| Batching.ReplayKeepsInvariants | obp/policy/contextual.py:179-189 | every replay of in-range observations preserves buffer alignment and the buffer-count invariants |
| Batching.ReplayCounts | obp/policy/contextual.py:179-180 | after a replay each action's count is its earlier count plus the number of observations that pulled it |
| Batching.StaysWarm | obp/policy/contextual.py:155-156 | once every action has been pulled no replay returns selection to its cold start |
| Batching.ReplayPreservesModels | obp/policy/contextual.py:184-187 | a property of models that refitting preserves holds of every model after any replay |
| Ranking.BestUnchosen | obp/policy/contextual.py:160-161 | the chosen action is unranked so far and scores at least as high as every other unranked action from the given index on; there is none exactly when all are ranked |
| Ranking.TopK | obp/policy/contextual.py:160-161 | for k up to the number of actions, the result is k distinct actions in range, in non-increasing score order, with no left-out action scoring above a selected one |
| Ranking.TopKScoresDetermined | obp/policy/contextual.py:160-161 | any two valid top-k answers carry the same score at every position, so they differ only among tied actions |
| Selection.Choice | obp/policy/contextual.py:156 | a without-replacement draw succeeds exactly when the slate is no larger than the population, and returns the drawn slate of distinct in-range actions |
| Selection.Rank | obp/policy/contextual.py:160-161 | the ranking succeeds exactly when `len_list` is a valid pivot index, and then is a top-k answer for the scores |
| Selection.SelectEpsilonGreedy | obp/policy/contextual.py:155-163 | fails with `EmptyActionSet` exactly when there are no actions; any slate returned has `len_list` distinct actions in range; in the cold start or when u is at most epsilon it is the random slate, and fails with `SampleLargerThanPopulation` exactly when `len_list` exceeds the number of actions; otherwise it is a top-k answer by point estimate, and fails with `KthOutOfBounds` exactly when `len_list` is not below the number of actions |
| Selection.UcbScores | obp/policy/contextual.py:268-272 | with non-negative weight and width each UCB score is at least the point estimate, and with zero weight it equals it |
| Selection.SelectUcb | obp/policy/contextual.py:265-274 | any slate returned has `len_list` distinct actions in range; in the cold start it is the random slate, failing with `SampleLargerThanPopulation` exactly when `len_list` exceeds the number of actions; once warm it is always a top-k answer by UCB score, failing with `KthOutOfBounds` exactly when `len_list` is not below the number of actions |
| Selection.SelectThompson | obp/policy/contextual.py:370-376 | any slate returned has `len_list` distinct actions in range; in the cold start it is the random slate, failing with `SampleLargerThanPopulation` exactly when `len_list` exceeds the number of actions; once warm it is a top-k answer by the sampled scores, failing with `KthOutOfBounds` exactly when `len_list` is not below the number of actions |
| Selection.ColdStartIgnoresModels | obp/policy/contextual.py:155-156 | while some count is zero all three policies return the same slate whatever the scores and the uniform draw |
| Selection.PureExploration | obp/policy/contextual.py:158-163 | with epsilon at least 1 epsilon-greedy always returns the random slate |
| Selection.ZeroBonusIsGreedy | obp/policy/contextual.py:272-274 | UCB with zero exploration weight returns the same slate as exploiting epsilon-greedy |
| Logistic.Prior | obp/policy/contextual.py:412-415 | a new model has a zero mean and precision `lambda_` in each of its `dim` coordinates, all positive when `lambda_` is |
| Logistic.Accumulate | obp/policy/contextual.py:436 | the row-by-row precision update equals the old precision plus, per coordinate, the sum over the batch of P(1-P) x^2 |
| Logistic.CurvatureNonNegative | obp/policy/contextual.py:436 | with every P in (0, 1), the precision gain of each coordinate over a batch is non-negative |
| Logistic.AccumulateMonotone | obp/policy/contextual.py:436 | the precision update never lowers any coordinate |
| Logistic.Fit | obp/policy/contextual.py:431-436 | `fit` takes the refit mean and adds to each precision coordinate exactly that coordinate's batch sum of P(1-P) x^2, so the precision is at least the old one in every coordinate and positive whenever the old one was |
| Logistic.ConfidenceVariance | obp/policy/contextual.py:270 | the sum under the UCB square root is non-negative |
| Logistic.MorePrecisionNarrows | obp/policy/contextual.py:270 | a precision vector at least as large in every coordinate gives every context a confidence sum no larger |
| Logistic.FitNarrowsConfidence | obp/policy/contextual.py:270 | after a fit, no context's confidence sum under the UCB square root (the square of the width) is larger than before |
| Lifetime.PrecisionStaysPositive | obp/policy/contextual.py:412-436 | a policy whose actions start from the prior with positive `lambda_`, and whose refits are logistic `fit`s, keeps every action's precision strictly positive after any sequence of in-range updates |

## Left out

- The L-BFGS-B refit of the mean and its loss and gradient (lines 417-434) are left out. They are floating-point numerics inside a foreign solver. The refit mean is a parameter of `Logistic.Fit`, and refitting is a function parameter of the policy.
- `sigmoid` and `exp` (lines 435, 444), the UCB square root (line 270) and Gaussian sampling (line 429) are left out. Scores, widths and the probabilities P enter as given reals.
- P is computed at line 435 as `1/(1+exp(1+X·m))`, which is not `sigmoid(X·m)`. The model only uses the fact that P lies in (0, 1).
- The random generator (`check_random_state`, `choice`, `rand`) and its re-seeding in `initialize` are left out. Their outcomes are parameters constrained to their documented range and distinctness.
- Logistic.ConfidenceVariance: states non-negativity and monotonicity of the sum under the square root, not the width itself, because the square root is left out.
- `LogisticTS.__init__` (line 347) takes no arguments and overrides the dataclass initialiser. It is not modelled. `MiniBatchLogisticRegression.sample` reads `self.random_`, which is never set. Thompson selection is modelled only as top-k over supplied sampled scores.
- The precision arithmetic (`lambda_`, the P(1-P) x^2 sums and x^2/q) is done over exact reals, not 64-bit floats. Rounding, overflow and underflow are not modelled.
- Floating-point ranking with NaN scores is left out. Scores are reals.
- A negative `batch_size` is left out. The batch size is a natural number here.
- Negative `n_trial` and `len_list` are left out. Both are declared `int` and never validated, but both are natural numbers here. With a negative `n_trial`, the first flush happens when the counter climbs to a multiple of `batch_size`. With a negative `len_list`, `choice` raises, and once warm `argpartition` accepts it and the slice keeps `n_actions + len_list` actions.
- The cold-start coverage claim "every action is pulled by the n-th call" is not modelled. It depends on which random slates are drawn and which logged action is fed back, and the code does not guarantee it.
- `examples/obd/evaluate_counterfactual_policy.py` is left out. It is a command-line driver over data loading, off-policy estimators, file output and plotting.

=== FILE: basics.dfy ===
/** Failure-carrying values shared by the policy model. */
module Basics {

  /** A value that may be absent. */
  datatype Option<+T> = None | Some(value: T)

  /** Either a computed value or the error the computation raised. */
  datatype Result<+T, +E> = Success(value: T) | Failure(error: E)
}

=== FILE: batching.dfy ===
/** What the update protocol keeps true across a whole replay of
    observations: buffer alignment, the number of buffered observations
    against the trial counter, pull counts, and any property of the models
    that refitting preserves. */
module Batching {
  import opened Basics
  import opened Policy

  /** Observations buffered over all actions. */
  function Total<X>(buffers: seq<seq<X>>): (r: nat) {
    if |buffers| == 0 then 0 else |buffers[0]| + Total(buffers[1..])
  }

  lemma {:induction false} TotalAppend<X>(buffers: seq<seq<X>>, a: nat, x: X)
    requires a < |buffers|
    ensures Total(buffers[a := buffers[a] + [x]]) == Total(buffers) + 1
  {
    var grown := buffers[a := buffers[a] + [x]];
    if a == 0 {
      assert grown[1..] == buffers[1..];
    } else {
      TotalAppend(buffers[1..], a - 1, x);
      assert grown[1..] == buffers[1..][a - 1 := buffers[a] + [x]];
    }
  }

  lemma {:induction false} TotalDrained<X>(buffers: seq<seq<X>>)
    requires Drained(buffers)
    ensures Total(buffers) == 0
  {
    if |buffers| > 0 {
      assert Drained(buffers[1..]);
      TotalDrained(buffers[1..]);
    }
  }

  /** Every action's reward and context buffers have the same length. */
  predicate Aligned<C, R, M>(s: State<C, R, M>)
    requires s.WellFormed()
  {
    forall a | 0 <= a < s.NumActions() :: |s.rewards[a]| == |s.contexts[a]|
  }

  /** The invariant from a construction at `n_trial` 0 (or any multiple of
      the batch size): the buffers hold exactly the observations since the
      last batch boundary. */
  predicate Consistent<C, R, M>(s: State<C, R, M>, batchSize: nat) {
    batchSize >= 1 && s.WellFormed() && Aligned(s) && Total(s.rewards) == s.nTrial % batchSize
  }

  /** The invariant from a construction at any `n_trial`: the buffers never
      hold more than the trials since the last multiple of the batch size,
      and in particular fewer than a batch. */
  predicate Bounded<C, R, M>(s: State<C, R, M>, batchSize: nat) {
    batchSize >= 1 && s.WellFormed() && Aligned(s) && Total(s.rewards) <= s.nTrial % batchSize
  }

  lemma MulAtLeast(d: int, b: int)
    requires d >= 1 && b >= 1
    ensures d * b >= b
  {
  }

  lemma ModUnique(x: int, b: int, q: int, r: int)
    requires b >= 1 && 0 <= r < b && x == q * b + r
    ensures x % b == r
  {
    var q0, r0 := x / b, x % b;
    assert x == q0 * b + r0;
    var d := q - q0;
    assert d * b == r0 - r by {
      assert q * b - q0 * b == r0 - r;
      assert d * b == q * b - q0 * b;
    }
    if d >= 1 {
      MulAtLeast(d, b);
    } else if d <= -1 {
      MulAtLeast(-d, b);
    }
  }

  lemma ModStep(t: nat, b: nat)
    requires b >= 1 && (t + 1) % b != 0
    ensures (t + 1) % b == t % b + 1
  {
    var q, r := t / b, t % b;
    if r + 1 == b {
      ModUnique(t + 1, b, q + 1, 0);
    } else {
      ModUnique(t + 1, b, q, r + 1);
    }
  }

  /** A construction satisfies the exact invariant precisely when its
      `n_trial` is a multiple of the batch size (the default 0 is). */
  lemma ConstructConsistent<C, R, M>(nActions: nat, nTrial: nat, prior: M, batchSize: nat)
    requires batchSize >= 1
    ensures Consistent(Construct<C, R, M>(nActions, nTrial, prior), batchSize) <==> nTrial % batchSize == 0
    ensures Bounded(Construct<C, R, M>(nActions, nTrial, prior), batchSize)
  {
    TotalDrained(Construct<C, R, M>(nActions, nTrial, prior).rewards);
  }

  /** `initialize` re-establishes the exact invariant for any batch size. */
  lemma InitializeConsistent<C, R, M>(s: State<C, R, M>, batchSize: nat)
    requires s.WellFormed() && batchSize >= 1
    ensures Consistent(Initialize(s), batchSize)
  {
    TotalDrained(Initialize(s).rewards);
  }

  /** One in-range `update_params` call keeps both invariants. */
  lemma UpdateKeepsInvariants<C, R, M>(s: State<C, R, M>, batchSize: nat, action: int, reward: R, context: C,
                                       refit: (M, seq<C>, seq<R>) -> M)
    requires Bounded(s, batchSize)
    requires -(s.NumActions() as int) <= action < s.NumActions()
    ensures Update(s, batchSize, action, reward, context, refit).Done?
    ensures Bounded(Update(s, batchSize, action, reward, context, refit).state, batchSize)
    ensures Consistent(s, batchSize) ==> Consistent(Update(s, batchSize, action, reward, context, refit).state, batchSize)
  {
    var o := Update(s, batchSize, action, reward, context, refit);
    var a := Resolve(action, s.NumActions()).value;
    if o.state.nTrial % batchSize == 0 {
      TotalDrained(o.state.rewards);
    } else {
      TotalAppend(s.rewards, a, reward);
      ModStep(s.nTrial, batchSize);
    }
  }

  /** One observation fed to `update_params`. */
  datatype Observation<C, R> = Observation(action: int, reward: R, context: C)

  /** Every observation names an action index that resolves among n actions. */
  predicate Resolvable<C, R>(obs: seq<Observation<C, R>>, n: nat) {
    forall i | 0 <= i < |obs| :: -(n as int) <= obs[i].action < n
  }

  /** The state after feeding the observations, in order, to `update_params`. */
  function Replay<C, R, M>(s: State<C, R, M>, batchSize: nat, obs: seq<Observation<C, R>>,
                           refit: (M, seq<C>, seq<R>) -> M): (r: State<C, R, M>)
    requires batchSize >= 1 && s.WellFormed() && Resolvable(obs, s.NumActions())
    ensures r.WellFormed() && r.NumActions() == s.NumActions()
    ensures r.nTrial == s.nTrial + |obs|
    decreases |obs|
  {
    if |obs| == 0 then s
    else Replay(Update(s, batchSize, obs[0].action, obs[0].reward, obs[0].context, refit).state,
                batchSize, obs[1..], refit)
  }

  /** How many of the observations pull action a. */
  function Pulls<C, R>(obs: seq<Observation<C, R>>, n: nat, a: nat): (r: nat) {
    if |obs| == 0 then 0
    else (if Resolve(obs[0].action, n) == Some(a) then 1 else 0) + Pulls(obs[1..], n, a)
  }

  /** Both invariants hold after any replay of in-range observations. */
  lemma {:induction false} ReplayKeepsInvariants<C, R, M>(s: State<C, R, M>, batchSize: nat,
                                                         obs: seq<Observation<C, R>>,
                                                         refit: (M, seq<C>, seq<R>) -> M)
    requires Bounded(s, batchSize) && Resolvable(obs, s.NumActions())
    ensures Bounded(Replay(s, batchSize, obs, refit), batchSize)
    ensures Consistent(s, batchSize) ==> Consistent(Replay(s, batchSize, obs, refit), batchSize)
    decreases |obs|
  {
    if |obs| > 0 {
      UpdateKeepsInvariants(s, batchSize, obs[0].action, obs[0].reward, obs[0].context, refit);
      var next := Update(s, batchSize, obs[0].action, obs[0].reward, obs[0].context, refit).state;
      ReplayKeepsInvariants(next, batchSize, obs[1..], refit);
    }
  }

  /** Each action's pull count after a replay is its count before plus the
      number of observations that pulled it. */
  lemma {:induction false} ReplayCounts<C, R, M>(s: State<C, R, M>, batchSize: nat,
                                                obs: seq<Observation<C, R>>,
                                                refit: (M, seq<C>, seq<R>) -> M)
    requires batchSize >= 1 && s.WellFormed() && Resolvable(obs, s.NumActions())
    ensures forall a | 0 <= a < s.NumActions() ::
              Replay(s, batchSize, obs, refit).counts[a] == s.counts[a] + Pulls(obs, s.NumActions(), a)
    decreases |obs|
  {
    if |obs| > 0 {
      var next := Update(s, batchSize, obs[0].action, obs[0].reward, obs[0].context, refit).state;
      ReplayCounts(next, batchSize, obs[1..], refit);
    }
  }

  /** Once every action has been pulled, no replay brings selection back to
      its cold start: pull counts never decrease. */
  lemma StaysWarm<C, R, M>(s: State<C, R, M>, batchSize: nat, obs: seq<Observation<C, R>>,
                           refit: (M, seq<C>, seq<R>) -> M)
    requires batchSize >= 1 && s.WellFormed() && Resolvable(obs, s.NumActions())
    requires !Cold(s.counts)
    ensures !Cold(Replay(s, batchSize, obs, refit).counts)
  {
    ReplayCounts(s, batchSize, obs, refit);
    var r := Replay(s, batchSize, obs, refit);
    forall a | 0 <= a < |r.counts|
      ensures r.counts[a] != 0
    {
      assert s.counts[a] != 0;
    }
  }

  /** Any property of a single model that refitting preserves holds of every
      model after any replay. */
  lemma {:induction false} ReplayPreservesModels<C, R, M>(s: State<C, R, M>, batchSize: nat,
                                                         obs: seq<Observation<C, R>>,
                                                         refit: (M, seq<C>, seq<R>) -> M, ok: M -> bool)
    requires batchSize >= 1 && s.WellFormed() && Resolvable(obs, s.NumActions())
    requires forall m, cs, rs :: ok(m) ==> ok(refit(m, cs, rs))
    requires forall a | 0 <= a < s.NumActions() :: ok(s.models[a])
    ensures forall a | 0 <= a < s.NumActions() :: ok(Replay(s, batchSize, obs, refit).models[a])
    decreases |obs|
  {
    if |obs| > 0 {
      var next := Update(s, batchSize, obs[0].action, obs[0].reward, obs[0].context, refit).state;
      ReplayPreservesModels(next, batchSize, obs[1..], refit, ok);
    }
  }
}

=== FILE: indices.dfy ===
/** Sequences of action indices: distinctness, range, and the counting
    facts (pigeonhole) that ranking and sampling without replacement rely on. */
module Indices {

  /** No element occurs twice. */
  predicate Distinct(s: seq<nat>) {
    forall i, j | 0 <= i < j < |s| :: s[i] != s[j]
  }

  /** Every element is an action index in [0, n). */
  predicate AllBelow(s: seq<nat>, n: nat) {
    forall i | 0 <= i < |s| :: s[i] < n
  }

  /** A slate: exactly k pairwise-distinct action indices from [0, n). */
  predicate IsSlate(s: seq<nat>, n: nat, k: nat) {
    |s| == k && Distinct(s) && AllBelow(s, n)
  }

  /** The set of elements of a sequence. */
  function Elements<T>(s: seq<T>): (r: set<T>) {
    set x | x in s
  }

  lemma {:induction false} ElementsBound<T>(s: seq<T>)
    ensures |Elements(s)| <= |s|
  {
    if |s| > 0 {
      ElementsBound(s[1..]);
      assert Elements(s) == {s[0]} + Elements(s[1..]);
    }
  }

  lemma {:induction false} DistinctElements(s: seq<nat>)
    requires Distinct(s)
    ensures |Elements(s)| == |s|
  {
    if |s| > 0 {
      assert Distinct(s[1..]);
      DistinctElements(s[1..]);
      assert Elements(s) == {s[0]} + Elements(s[1..]);
      assert s[0] !in Elements(s[1..]);
    }
  }

  /** The action indices [0, n). */
  function Below(n: nat): (r: set<nat>)
    ensures forall a: nat :: a in r <==> a < n
    ensures |r| == n
  {
    if n == 0 then {} else Below(n - 1) + {n - 1}
  }

  lemma {:induction false} SubsetSize<T>(a: set<T>, b: set<T>)
    requires a <= b
    ensures |a| <= |b|
  {
    if a != {} {
      var x :| x in a;
      SubsetSize(a - {x}, b - {x});
    }
  }

  /** A distinct sequence of indices below n has at most n elements, and
      when it is shorter than n some index below n is missing from it. */
  lemma SlateRoom(s: seq<nat>, n: nat)
    requires Distinct(s) && AllBelow(s, n)
    ensures |s| <= n
    ensures |s| < n ==> exists a: nat :: a < n && a !in s
  {
    DistinctElements(s);
    assert Elements(s) <= Below(n);
    SubsetSize(Elements(s), Below(n));
    if |s| < n {
      assert Below(n) - Elements(s) != {};
      var a :| a in Below(n) - Elements(s);
      assert a < n && a !in s;
    }
  }
}

=== FILE: lifetime.dfy ===
/** The policies instantiated with the per-action logistic model: what the
    precision bookkeeping guarantees over a policy's whole lifetime. */
module Lifetime {
  import opened Policy
  import opened Batching
  import opened Logistic

  /** `r` is a `fit` of `m`: for some refit mean and some batch of rows
      with probabilities in (0, 1). */
  ghost predicate FitOf(m: Model, r: Model) {
    exists x: seq<seq<real>>, p: seq<real>, mean: seq<real> ::
      && |mean| == |m.mean|
      && Batch(x, p, |m.precision|)
      && r == Fit(m, x, p, mean)
  }

  /** A policy built with a positive `lambda_` keeps a strictly positive
      precision for every action and coordinate, however many in-range
      observations `update_params` is fed. */
  lemma PrecisionStaysPositive<C, R>(nActions: nat, nTrial: nat, priorPrecision: real, dim: nat,
                                     batchSize: nat, obs: seq<Observation<C, R>>,
                                     refit: (Model, seq<C>, seq<R>) -> Model)
    requires priorPrecision > 0.0 && batchSize >= 1
    requires Resolvable(obs, nActions)
    // every refit is a `fit` of the model it replaces
    requires forall m: Model, cs: seq<C>, rs: seq<R> :: FitOf(m, refit(m, cs, rs))
    ensures forall a | 0 <= a < nActions ::
              Positive(Replay(Construct(nActions, nTrial, Prior(priorPrecision, dim)),
                              batchSize, obs, refit).models[a].precision)
  {
    var s := Construct<C, R, Model>(nActions, nTrial, Prior(priorPrecision, dim));
    var ok := (m: Model) => Positive(m.precision);
    forall m: Model, cs: seq<C>, rs: seq<R> | ok(m)
      ensures ok(refit(m, cs, rs))
    {
      assert FitOf(m, refit(m, cs, rs));
      var x: seq<seq<real>>, p: seq<real>, mean: seq<real> :|
        |mean| == |m.mean| && Batch(x, p, |m.precision|) && refit(m, cs, rs) == Fit(m, x, p, mean);
    }
    ReplayPreservesModels(s, batchSize, obs, refit, ok);
  }

  /** A refit that keeps the mean and learns from an empty batch is a `fit`,
      so the lifetime guarantee applies to it. */
  lemma EmptyBatchRefitKeepsPositive<C, R>(nActions: nat, priorPrecision: real, dim: nat,
                                           batchSize: nat, obs: seq<Observation<C, R>>)
    requires priorPrecision > 0.0 && batchSize >= 1 && Resolvable(obs, nActions)
    ensures var refit := (m: Model, cs: seq<C>, rs: seq<R>) => Fit(m, [], [], m.mean);
            forall a | 0 <= a < nActions ::
              Positive(Replay(Construct(nActions, 0, Prior(priorPrecision, dim)),
                              batchSize, obs, refit).models[a].precision)
  {
    var refit := (m: Model, cs: seq<C>, rs: seq<R>) => Fit(m, [], [], m.mean);
    forall m: Model, cs: seq<C>, rs: seq<R>
      ensures FitOf(m, refit(m, cs, rs))
    {
      var x: seq<seq<real>>, p: seq<real> := [], [];
      assert Batch(x, p, |m.precision|);
      assert refit(m, cs, rs) == Fit(m, x, p, m.mean);
    }
    PrecisionStaysPositive(nActions, 0, priorPrecision, dim, batchSize, obs, refit);
  }
}

=== FILE: logistic.dfy ===
/** The per-action online logistic regression (`MiniBatchLogisticRegression`):
    a mean coefficient vector and a diagonal precision vector. The mean
    produced by the bounded L-BFGS-B refit and the per-row probabilities P
    enter as given values; what is modelled is the precision bookkeeping
    and what it implies for the UCB confidence width. */
module Logistic {

  /** Mean `m` and diagonal precision `q` of one action's model. */
  datatype Model = Model(mean: seq<real>, precision: seq<real>)

  /** Every coordinate is strictly positive. */
  predicate Positive(q: seq<real>) {
    forall i | 0 <= i < |q| :: q[i] > 0.0
  }

  /** q2 is at least q1 in every coordinate. */
  predicate AtLeast(q2: seq<real>, q1: seq<real>) {
    |q2| == |q1| && forall i | 0 <= i < |q1| :: q2[i] >= q1[i]
  }

  /** A refit batch: one row of `dim` features per observation and, for each
      row, a probability P strictly between 0 and 1. */
  predicate Batch(x: seq<seq<real>>, p: seq<real>, dim: nat) {
    && |p| == |x|
    && (forall j | 0 <= j < |x| :: |x[j]| == dim)
    && (forall j | 0 <= j < |p| :: 0.0 < p[j] < 1.0)
  }

  /** The prior a policy gives every action: zero mean and precision
      `lambda_` in every coordinate. */
  function Prior(priorPrecision: real, dim: nat): (r: Model)
    ensures |r.mean| == dim && |r.precision| == dim
    ensures forall i | 0 <= i < dim :: r.mean[i] == 0.0
    ensures priorPrecision > 0.0 ==> Positive(r.precision)
    ensures forall i | 0 <= i < dim :: r.precision[i] == priorPrecision
  {
    Model(seq(dim, _ => 0.0), seq(dim, _ => priorPrecision))
  }

  /** Reference definition of the precision gain of coordinate i over a
      batch: the sum over rows j of P_j (1 - P_j) x_j[i]^2. */
  function Curvature(x: seq<seq<real>>, p: seq<real>, i: nat): (r: real)
    requires |p| == |x| && forall j | 0 <= j < |x| :: i < |x[j]|
  {
    if |x| == 0 then 0.0
    else p[0] * (1.0 - p[0]) * x[0][i] * x[0][i] + Curvature(x[1..], p[1..], i)
  }

  lemma MulNonNegative(a: real, b: real)
    requires a >= 0.0 && b >= 0.0
    ensures a * b >= 0.0
  {
  }

  lemma {:induction false} CurvatureNonNegative(x: seq<seq<real>>, p: seq<real>, dim: nat, i: nat)
    requires Batch(x, p, dim) && i < dim
    ensures Curvature(x, p, i) >= 0.0
  {
    if |x| > 0 {
      var w := p[0] * (1.0 - p[0]);
      MulNonNegative(p[0], 1.0 - p[0]);
      MulNonNegative(w, x[0][i] * x[0][i]);
      assert w * x[0][i] * x[0][i] == w * (x[0][i] * x[0][i]);
      CurvatureNonNegative(x[1..], p[1..], dim, i);
    }
  }

  /** Adds one row's contribution w * row[i]^2 to every coordinate. */
  function AddRow(q: seq<real>, row: seq<real>, w: real): (r: seq<real>)
    requires |row| == |q|
    ensures |r| == |q|
  {
    seq(|q|, i requires 0 <= i < |q| => q[i] + w * row[i] * row[i])
  }

  /** The precision update `q + (P * (1 - P)).dot(X ** 2)`, computed one row
      of the batch at a time. */
  function Accumulate(q: seq<real>, x: seq<seq<real>>, p: seq<real>): (r: seq<real>)
    requires Batch(x, p, |q|)
    ensures |r| == |q|
    ensures forall i | 0 <= i < |q| :: r[i] == q[i] + Curvature(x, p, i)
    decreases |x|
  {
    if |x| == 0 then q
    else Accumulate(AddRow(q, x[0], p[0] * (1.0 - p[0])), x[1..], p[1..])
  }

  /** The precision update never lowers a coordinate. */
  lemma AccumulateMonotone(q: seq<real>, x: seq<seq<real>>, p: seq<real>)
    requires Batch(x, p, |q|)
    ensures AtLeast(Accumulate(q, x, p), q)
  {
    forall i | 0 <= i < |q|
      ensures Accumulate(q, x, p)[i] >= q[i]
    {
      CurvatureNonNegative(x, p, |q|, i);
    }
  }

  /** `fit`: the mean becomes the refit mean; the precision then grows by the
      curvature of the batch, with P computed from that refit mean. */
  function Fit(model: Model, x: seq<seq<real>>, p: seq<real>, refitMean: seq<real>): (r: Model)
    requires |refitMean| == |model.mean|
    requires Batch(x, p, |model.precision|)
    ensures r.mean == refitMean
    ensures |r.precision| == |model.precision|
    ensures forall i | 0 <= i < |model.precision| ::
              r.precision[i] == model.precision[i] + Curvature(x, p, i)
    ensures AtLeast(r.precision, model.precision)
    ensures Positive(model.precision) ==> Positive(r.precision)
  {
    AccumulateMonotone(model.precision, x, p);
    Model(refitMean, Accumulate(model.precision, x, p))
  }

  /** One coordinate's share of the confidence width: a^2 / q. */
  function SquareOver(a: real, q: real): (r: real)
    requires q > 0.0
    ensures r >= 0.0
  {
    assert a * a >= 0.0;
    a * a / q
  }

  /** The squared UCB confidence width of one action for context x:
      the sum over coordinates of x[d]^2 / q[d]. */
  function ConfidenceVariance(q: seq<real>, x: seq<real>): (r: real)
    requires Positive(q) && |x| == |q|
    ensures r >= 0.0
  {
    if |q| == 0 then 0.0
    else
      assert Positive(q[1..]);
      SquareOver(x[0], q[0]) + ConfidenceVariance(q[1..], x[1..])
  }

  lemma CancelPositive(u: real, v: real, c: real)
    requires c > 0.0 && u * c <= v * c
    ensures u <= v
  {
  }

  lemma SquareOverLarger(a: real, q1: real, q2: real)
    requires 0.0 < q1 <= q2
    ensures SquareOver(a, q2) <= SquareOver(a, q1)
  {
    var s1 := SquareOver(a, q1);
    var s2 := SquareOver(a, q2);
    assert s1 == a * a / q1 && s2 == a * a / q2;
    assert s1 * q1 == a * a;
    assert s2 * q2 == a * a;
    MulNonNegative(s1, q2 - q1);
    assert s1 * q1 <= s1 * q2;
    CancelPositive(s2, s1, q2);
  }

  /** More precision can only narrow the confidence width. */
  lemma {:induction false} MorePrecisionNarrows(q1: seq<real>, q2: seq<real>, x: seq<real>)
    requires Positive(q1) && AtLeast(q2, q1) && |x| == |q1|
    ensures Positive(q2)
    ensures ConfidenceVariance(q2, x) <= ConfidenceVariance(q1, x)
  {
    assert Positive(q2) by {
      forall i | 0 <= i < |q2| ensures q2[i] > 0.0 {
        assert q2[i] >= q1[i] > 0.0;
      }
    }
    if |q1| > 0 {
      SquareOverLarger(x[0], q1[0], q2[0]);
      assert Positive(q1[1..]) && AtLeast(q2[1..], q1[1..]);
      MorePrecisionNarrows(q1[1..], q2[1..], x[1..]);
      assert ConfidenceVariance(q1, x) == x[0] * x[0] / q1[0] + ConfidenceVariance(q1[1..], x[1..]);
      assert ConfidenceVariance(q2, x) == x[0] * x[0] / q2[0] + ConfidenceVariance(q2[1..], x[1..]);
    }
  }

  /** After a fit, no context's UCB confidence width has grown. */
  lemma FitNarrowsConfidence(model: Model, x: seq<seq<real>>, p: seq<real>, refitMean: seq<real>, context: seq<real>)
    requires |refitMean| == |model.mean|
    requires Batch(x, p, |model.precision|)
    requires Positive(model.precision) && |context| == |model.precision|
    ensures Positive(Fit(model, x, p, refitMean).precision)
    ensures ConfidenceVariance(Fit(model, x, p, refitMean).precision, context)
            <= ConfidenceVariance(model.precision, context)
  {
    MorePrecisionNarrows(model.precision, Fit(model, x, p, refitMean).precision, context);
  }
}

=== FILE: policy.dfy ===
/** The bookkeeping shared verbatim by `LogisticEpsilonGreedy`, `LogisticUCB`
    and `LogisticTS`: the trial counter, per-action pull counts, per-action
    buffers of (context, reward) observations awaiting a batch refit, and the
    per-action models. Contexts, rewards and models are opaque type
    parameters; refitting a model from a batch is a function passed in. */
module Policy {
  import opened Basics
  import opened Indices

  datatype State<C, R, M> = State(
    nTrial: nat,
    counts: seq<nat>,
    rewards: seq<seq<R>>,
    contexts: seq<seq<C>>,
    models: seq<M>)
  {
    /** One pull count, two buffers and one model per action. */
    predicate WellFormed() {
      |counts| == |models| && |rewards| == |models| && |contexts| == |models|
    }

    function NumActions(): nat {
      |models|
    }
  }

  /** The exceptions `update_params` can raise: an action index numpy and
      Python lists reject, and a zero `batch_size` as the modulus. */
  datatype UpdateError = IndexOutOfRange | ZeroDivision

  /** The result of `update_params`: either it returned, with the actions
      whose model was refit in the order `fit` was called, or it raised,
      leaving the object in the partially updated state shown. */
  datatype Outcome<C, R, M> =
    | Done(state: State<C, R, M>, fitted: seq<nat>)
    | Raised(state: State<C, R, M>, error: UpdateError)

  /** Some action has never been pulled: selection is in its cold start. */
  predicate Cold(counts: seq<nat>) {
    exists a | 0 <= a < |counts| :: counts[a] == 0
  }

  /** Strictly increasing action indices. */
  predicate Increasing(s: seq<nat>) {
    forall i, j | 0 <= i < j < |s| :: s[i] < s[j]
  }

  /** Every buffer is empty. */
  predicate Drained<X>(buffers: seq<seq<X>>) {
    forall a | 0 <= a < |buffers| :: |buffers[a]| == 0
  }

  /** A freshly constructed policy (`__post_init__`): `n_trial` as given
      (a dataclass field, 0 by default), zero pull counts, empty buffers and
      every action's model the same prior. */
  function Construct<C, R, M>(nActions: nat, nTrial: nat, prior: M): (s: State<C, R, M>)
    ensures s.WellFormed() && s.NumActions() == nActions && s.nTrial == nTrial
    ensures forall a | 0 <= a < nActions :: s.counts[a] == 0
    ensures Cold(s.counts) <==> nActions > 0
    ensures Drained(s.rewards) && Drained(s.contexts)
    ensures forall a | 0 <= a < nActions :: s.models[a] == prior
  {
    var s := State(nTrial, seq(nActions, _ => 0), seq(nActions, _ => []), seq(nActions, _ => []),
                   seq(nActions, _ => prior));
    assert nActions > 0 ==> s.counts[0] == 0;
    s
  }

  /** `initialize`: restarts the exploration bookkeeping (trial counter, pull
      counts, buffers) but keeps every action's model as it is. */
  function Initialize<C, R, M>(s: State<C, R, M>): (r: State<C, R, M>)
    requires s.WellFormed()
    ensures r.WellFormed() && r.NumActions() == s.NumActions()
    ensures r.nTrial == 0
    ensures forall a | 0 <= a < |r.counts| :: r.counts[a] == 0
    ensures Cold(r.counts) <==> s.NumActions() > 0
    ensures Drained(r.rewards) && Drained(r.contexts)
    ensures r.models == s.models
  {
    var n := s.NumActions();
    var r := State(0, seq(n, _ => 0), seq(n, _ => []), seq(n, _ => []), s.models);
    assert n > 0 ==> r.counts[0] == 0;
    r
  }

  /** Python indexing of an n-element list or array: an index in [-n, n)
      names the element at that index modulo n; any other index raises. */
  function Resolve(action: int, n: nat): (r: Option<nat>)
    ensures r.Some? <==> -(n as int) <= action < n
    ensures r.Some? ==> r.value < n
    ensures 0 <= action < n ==> r == Some(action)
  {
    if 0 <= action < n then Some(action)
    else if -(n as int) <= action < 0 then Some(action + n)
    else None
  }

  /** A resolved index names the action congruent to it modulo n. */
  lemma ResolveCongruent(action: int, n: nat)
    requires Resolve(action, n).Some?
    ensures Resolve(action, n).value % n == action % n
  {
  }

  /** The first half of `update_params` for a resolved action: one more pull
      of `a`, and the observation appended to `a`'s buffers. */
  function Record<C, R, M>(s: State<C, R, M>, a: nat, reward: R, context: C): (r: State<C, R, M>)
    requires s.WellFormed() && a < s.NumActions()
    ensures r.WellFormed() && r.NumActions() == s.NumActions()
  {
    s.(counts := s.counts[a := s.counts[a] + 1],
       rewards := s.rewards[a := s.rewards[a] + [reward]],
       contexts := s.contexts[a := s.contexts[a] + [context]])
  }

  /** New models and the refit order for actions [0, i). */
  datatype Refits<M> = Refits(models: seq<M>, fitted: seq<nat>)

  /** The loop `for action, model in enumerate(model_list)` of the flush,
      over its first i iterations: a model is refit from its action's buffers
      exactly when the reward buffer is non-empty. */
  function RefitPrefix<C, R, M>(models: seq<M>, contexts: seq<seq<C>>, rewards: seq<seq<R>>,
                                refit: (M, seq<C>, seq<R>) -> M, i: nat): (r: Refits<M>)
    requires |contexts| == |models| && |rewards| == |models| && i <= |models|
    ensures |r.models| == i
    ensures forall a | 0 <= a < i ::
              r.models[a] == if |rewards[a]| == 0 then models[a] else refit(models[a], contexts[a], rewards[a])
    ensures forall a: nat :: a in r.fitted <==> a < i && |rewards[a]| > 0
    ensures Increasing(r.fitted)
  {
    if i == 0 then Refits([], [])
    else
      var r := RefitPrefix(models, contexts, rewards, refit, i - 1);
      var a := i - 1;
      if |rewards[a]| == 0 then Refits(r.models + [models[a]], r.fitted)
      else
        assert forall j | 0 <= j < |r.fitted| :: r.fitted[j] in r.fitted;
        Refits(r.models + [refit(models[a], contexts[a], rewards[a])], r.fitted + [a])
  }

  /** The batch boundary: refit every action with buffered rewards, then
      clear every action's buffers, including those already empty. */
  function Flush<C, R, M>(s: State<C, R, M>, refit: (M, seq<C>, seq<R>) -> M): (o: Outcome<C, R, M>)
    requires s.WellFormed()
    ensures o.Done? && o.state.WellFormed() && o.state.NumActions() == s.NumActions()
    ensures o.state.nTrial == s.nTrial && o.state.counts == s.counts
    ensures Drained(o.state.rewards) && Drained(o.state.contexts)
    ensures forall a | 0 <= a < s.NumActions() ::
              o.state.models[a] == if |s.rewards[a]| == 0 then s.models[a]
                                   else refit(s.models[a], s.contexts[a], s.rewards[a])
    ensures forall a: nat :: a in o.fitted <==> a < s.NumActions() && |s.rewards[a]| > 0
    ensures Increasing(o.fitted)
  {
    var n := s.NumActions();
    var r := RefitPrefix(s.models, s.contexts, s.rewards, refit, n);
    Done(s.(rewards := seq(n, _ => []), contexts := seq(n, _ => []), models := r.models), r.fitted)
  }

  /** `update_params(action, reward, context)`. */
  function Update<C, R, M>(s: State<C, R, M>, batchSize: nat, action: int, reward: R, context: C,
                           refit: (M, seq<C>, seq<R>) -> M): (o: Outcome<C, R, M>)
    requires s.WellFormed()
    ensures o.state.WellFormed() && o.state.NumActions() == s.NumActions()
    ensures o.state.nTrial == s.nTrial + 1
    ensures o.Raised? <==> Resolve(action, s.NumActions()).None? || batchSize == 0
    // an index outside [-n, n) raises once only the trial counter has moved
    ensures Resolve(action, s.NumActions()).None? ==>
              o == Raised(s.(nTrial := s.nTrial + 1), IndexOutOfRange)
    // an in-range index with a zero batch size raises at the modulus
    ensures Resolve(action, s.NumActions()).Some? && batchSize == 0 ==>
              o.Raised? && o.error == ZeroDivision
    // otherwise the resolved action, and only it, gains exactly one pull
    ensures Resolve(action, s.NumActions()).Some? ==>
              var a := Resolve(action, s.NumActions()).value;
              o.state.counts == s.counts[a := s.counts[a] + 1]
    // off a batch boundary (or raising on a zero batch size): the observation
    // is appended to the resolved action's buffers and nothing else changes
    ensures Resolve(action, s.NumActions()).Some? && (batchSize == 0 || o.state.nTrial % batchSize != 0) ==>
              var a := Resolve(action, s.NumActions()).value;
              && o.state.rewards == s.rewards[a := s.rewards[a] + [reward]]
              && o.state.contexts == s.contexts[a := s.contexts[a] + [context]]
              && o.state.models == s.models
              && (o.Done? ==> o.fitted == [])
    // on a batch boundary: every action with buffered data, the resolved one
    // included, is refit from its whole buffer; the rest keep their model;
    // then all buffers are empty
    ensures batchSize > 0 && o.Done? && o.state.nTrial % batchSize == 0 ==>
              var a := Resolve(action, s.NumActions()).value;
              && Drained(o.state.rewards) && Drained(o.state.contexts)
              && Increasing(o.fitted)
              && (forall b: nat :: b in o.fitted <==> b < s.NumActions() && (b == a || |s.rewards[b]| > 0))
              && o.state.models[a] == refit(s.models[a], s.contexts[a] + [context], s.rewards[a] + [reward])
              && (forall b | 0 <= b < s.NumActions() && b != a ::
                    o.state.models[b] == if |s.rewards[b]| == 0 then s.models[b]
                                         else refit(s.models[b], s.contexts[b], s.rewards[b]))
  {
    var bumped := s.(nTrial := s.nTrial + 1);
    match Resolve(action, s.NumActions())
    case None => Raised(bumped, IndexOutOfRange)
    case Some(a) =>
      var pending := Record(bumped, a, reward, context);
      if batchSize == 0 then Raised(pending, ZeroDivision)
      else if pending.nTrial % batchSize == 0 then Flush(pending, refit)
      else Done(pending, [])
  }
}

=== FILE: ranking.dfy ===
/** Top-k ranking of actions by score: the exploitation step shared by all
    three policies, `argpartition(-score, k)[:k]` followed by
    `argsort(-score[...])`. */
module Ranking {
  import opened Basics
  import opened Indices

  /** The ranked actions appear in non-increasing score order. */
  predicate NonIncreasing(scores: seq<real>, r: seq<nat>)
    requires AllBelow(r, |scores|)
  {
    forall i, j | 0 <= i < j < |r| :: scores[r[i]] >= scores[r[j]]
  }

  /** No action left out of the ranking scores above one that is in it. */
  predicate Dominates(scores: seq<real>, r: seq<nat>)
    requires AllBelow(r, |scores|)
  {
    forall a, i | 0 <= a < |scores| && a !in r && 0 <= i < |r| :: scores[a] <= scores[r[i]]
  }

  /** r is a valid answer of the top-k exploitation step: k distinct actions,
      best first, and no better action left out. */
  predicate IsTopK(scores: seq<real>, k: nat, r: seq<nat>) {
    IsSlate(r, |scores|, k) && NonIncreasing(scores, r) && Dominates(scores, r)
  }

  /** The best-scoring action at index i or above that is not yet chosen;
      on equal scores the lowest index wins. */
  function BestUnchosen(scores: seq<real>, chosen: seq<nat>, i: nat): (r: Option<nat>)
    requires i <= |scores|
    ensures r.Some? ==> i <= r.value < |scores| && r.value !in chosen
    ensures r.Some? ==> forall a | i <= a < |scores| && a !in chosen :: scores[a] <= scores[r.value]
    ensures r.None? <==> forall a | i <= a < |scores| :: a in chosen
    decreases |scores| - i
  {
    if i == |scores| then None
    else
      var rest := BestUnchosen(scores, chosen, i + 1);
      if i in chosen then rest
      else if rest.Some? && scores[rest.value] > scores[i] then rest
      else Some(i)
  }

  /** The k best actions, best first, built by repeatedly taking the best
      action not yet ranked. */
  function TopK(scores: seq<real>, k: nat): (r: seq<nat>)
    requires k <= |scores|
    ensures IsTopK(scores, k, r)
    decreases k
  {
    if k == 0 then []
    else
      var prev := TopK(scores, k - 1);
      SlateRoom(prev, |scores|);
      var best := BestUnchosen(scores, prev, 0);
      assert best.Some?;
      prev + [best.value]
  }

  /** Two valid top-k answers can differ only among equal scores: position by
      position they carry the same score. */
  lemma {:induction false} TopKScoresDetermined(scores: seq<real>, k: nat, r1: seq<nat>, r2: seq<nat>)
    requires IsTopK(scores, k, r1) && IsTopK(scores, k, r2)
    ensures forall i | 0 <= i < k :: scores[r1[i]] == scores[r2[i]]
  {
    forall i | 0 <= i < k
      ensures scores[r1[i]] == scores[r2[i]]
    {
      NoRoomAbove(scores, k, r1, r2, i);
      NoRoomAbove(scores, k, r2, r1, i);
    }
  }

  /** The i-th score of one valid answer cannot exceed the i-th score of
      another: the i+1 actions ranked first by r1 would otherwise all have to
      fit among the i actions ranked first by r2. */
  lemma NoRoomAbove(scores: seq<real>, k: nat, r1: seq<nat>, r2: seq<nat>, i: nat)
    requires IsTopK(scores, k, r1) && IsTopK(scores, k, r2) && i < k
    ensures scores[r1[i]] <= scores[r2[i]]
  {
    if scores[r1[i]] > scores[r2[i]] {
      var high := r1[..i + 1];
      var ahead := r2[..i];
      forall x | x in high
        ensures x in ahead
      {
        var p :| 0 <= p <= i && r1[p] == x;
        assert scores[x] > scores[r2[i]];
        if x in r2 {
          var q :| 0 <= q < k && r2[q] == x;
          assert q < i;
        }
      }
      assert Distinct(high);
      DistinctElements(high);
      ElementsBound(ahead);
      assert Elements(high) <= Elements(ahead);
      SubsetSize(Elements(high), Elements(ahead));
    }
  }
}

=== FILE: selection.dfy ===
/** `select_action` of the three contextual policies. Each action's score
    (the point estimate for epsilon-greedy, point estimate plus a weighted
    confidence width for UCB, a posterior draw for Thompson sampling) enters
    as a given real, and so do the random generator's outcomes: the uniform
    draw `u` and the without-replacement draw of a slate. */
module Selection {
  import opened Basics
  import opened Indices
  import opened Ranking
  import opened Policy

  /** The exceptions numpy raises inside `select_action`: the minimum of an
      empty count array, a without-replacement draw larger than the
      population, and an `argpartition` pivot `kth` outside the array. */
  datatype SelectError = EmptyActionSet | SampleLargerThanPopulation | KthOutOfBounds

  /** What the generator's `choice(n, size=k, replace=False)` returns whenever
      it does not raise: k distinct actions from [0, n). */
  predicate DrawFits(draw: seq<nat>, n: nat, k: nat) {
    k <= n ==> IsSlate(draw, n, k)
  }

  /** `random_.choice(n, size=k, replace=False)` with the drawn slate given. */
  function Choice(n: nat, k: nat, draw: seq<nat>): (r: Result<seq<nat>, SelectError>)
    requires DrawFits(draw, n, k)
    ensures r.Success? <==> k <= n
    ensures r.Success? ==> IsSlate(r.value, n, k) && r.value == draw
    ensures r.Failure? ==> r.error == SampleLargerThanPopulation
  {
    if k <= n then Success(draw) else Failure(SampleLargerThanPopulation)
  }

  /** `unsorted = argpartition(-score, k)[:k]` then
      `unsorted[argsort(-score[unsorted])]`: numpy requires the pivot k to
      be an index of the score array. */
  function Rank(scores: seq<real>, k: nat): (r: Result<seq<nat>, SelectError>)
    ensures r.Success? <==> k < |scores|
    ensures r.Success? ==> IsTopK(scores, k, r.value)
    ensures r.Failure? ==> r.error == KthOutOfBounds
  {
    if k < |scores| then Success(TopK(scores, k)) else Failure(KthOutOfBounds)
  }

  /** `LogisticEpsilonGreedy.select_action`: random slates until every
      action has been pulled; afterwards rank by the point estimates `theta`
      only when the uniform draw `u` exceeds epsilon. */
  function SelectEpsilonGreedy(counts: seq<nat>, lenList: nat, epsilon: real, theta: seq<real>,
                               u: real, draw: seq<nat>): (r: Result<seq<nat>, SelectError>)
    requires |theta| == |counts|
    requires 0.0 <= u < 1.0
    requires DrawFits(draw, |counts|, lenList)
    ensures r.Success? ==> IsSlate(r.value, |counts|, lenList)
    ensures r == Failure(EmptyActionSet) <==> |counts| == 0
    ensures |counts| > 0 && (Cold(counts) || u <= epsilon) ==>
              && (r.Success? <==> lenList <= |counts|) && (r.Success? ==> r.value == draw)
              && (r.Failure? ==> r.error == SampleLargerThanPopulation)
    ensures |counts| > 0 && !Cold(counts) && u > epsilon ==>
              && (r.Success? <==> lenList < |counts|) && (r.Success? ==> IsTopK(theta, lenList, r.value))
              && (r.Failure? ==> r.error == KthOutOfBounds)
  {
    if |counts| == 0 then Failure(EmptyActionSet)
    else if Cold(counts) then Choice(|counts|, lenList, draw)
    else if u > epsilon then Rank(theta, lenList)
    else Choice(|counts|, lenList, draw)
  }

  /** The UCB score of every action: its point estimate plus epsilon times
      its confidence width. */
  function UcbScores(theta: seq<real>, width: seq<real>, epsilon: real): (r: seq<real>)
    requires |width| == |theta|
    ensures |r| == |theta|
    ensures forall a | 0 <= a < |r| :: epsilon >= 0.0 && width[a] >= 0.0 ==> r[a] >= theta[a]
    ensures forall a | 0 <= a < |r| :: epsilon == 0.0 ==> r[a] == theta[a]
  {
    seq(|theta|, a requires 0 <= a < |theta| => theta[a] + epsilon * width[a])
  }

  /** `LogisticUCB.select_action`: random slates until every action has been
      pulled; afterwards always rank by the UCB scores. */
  function SelectUcb(counts: seq<nat>, lenList: nat, epsilon: real, theta: seq<real>, width: seq<real>,
                     draw: seq<nat>): (r: Result<seq<nat>, SelectError>)
    requires |theta| == |counts| && |width| == |counts|
    requires DrawFits(draw, |counts|, lenList)
    ensures r.Success? ==> IsSlate(r.value, |counts|, lenList)
    ensures r == Failure(EmptyActionSet) <==> |counts| == 0
    ensures |counts| > 0 && Cold(counts) ==>
              && (r.Success? <==> lenList <= |counts|) && (r.Success? ==> r.value == draw)
              && (r.Failure? ==> r.error == SampleLargerThanPopulation)
    ensures |counts| > 0 && !Cold(counts) ==>
              && (r.Success? <==> lenList < |counts|)
              && (r.Success? ==> IsTopK(UcbScores(theta, width, epsilon), lenList, r.value))
              && (r.Failure? ==> r.error == KthOutOfBounds)
  {
    if |counts| == 0 then Failure(EmptyActionSet)
    else if Cold(counts) then Choice(|counts|, lenList, draw)
    else Rank(UcbScores(theta, width, epsilon), lenList)
  }

  /** `LogisticTS.select_action`: random slates until every action has been
      pulled; afterwards rank by one posterior draw per action. */
  function SelectThompson(counts: seq<nat>, lenList: nat, sampled: seq<real>, draw: seq<nat>): (r: Result<seq<nat>, SelectError>)
    requires |sampled| == |counts|
    requires DrawFits(draw, |counts|, lenList)
    ensures r.Success? ==> IsSlate(r.value, |counts|, lenList)
    ensures r == Failure(EmptyActionSet) <==> |counts| == 0
    ensures |counts| > 0 && Cold(counts) ==>
              && (r.Success? <==> lenList <= |counts|) && (r.Success? ==> r.value == draw)
              && (r.Failure? ==> r.error == SampleLargerThanPopulation)
    ensures |counts| > 0 && !Cold(counts) ==>
              && (r.Success? <==> lenList < |counts|) && (r.Success? ==> IsTopK(sampled, lenList, r.value))
              && (r.Failure? ==> r.error == KthOutOfBounds)
  {
    if |counts| == 0 then Failure(EmptyActionSet)
    else if Cold(counts) then Choice(|counts|, lenList, draw)
    else Rank(sampled, lenList)
  }

  /** During the cold start no policy consults its models: whatever the
      scores (and, for epsilon-greedy, the uniform draw), all three return
      the same slate. */
  lemma ColdStartIgnoresModels(counts: seq<nat>, lenList: nat, epsilon: real, draw: seq<nat>,
                               theta1: seq<real>, theta2: seq<real>, width: seq<real>, u1: real, u2: real)
    requires Cold(counts)
    requires |theta1| == |counts| && |theta2| == |counts| && |width| == |counts|
    requires 0.0 <= u1 < 1.0 && 0.0 <= u2 < 1.0
    requires DrawFits(draw, |counts|, lenList)
    ensures SelectEpsilonGreedy(counts, lenList, epsilon, theta1, u1, draw)
            == SelectEpsilonGreedy(counts, lenList, epsilon, theta2, u2, draw)
            == SelectUcb(counts, lenList, epsilon, theta1, width, draw)
            == SelectThompson(counts, lenList, theta2, draw)
  {
  }

  /** With epsilon at least 1 the uniform draw never exceeds it, so
      epsilon-greedy never ranks: its slate is always the random draw. */
  lemma PureExploration(counts: seq<nat>, lenList: nat, epsilon: real, theta: seq<real>, u: real, draw: seq<nat>)
    requires |theta| == |counts| && 0.0 <= u < 1.0 && DrawFits(draw, |counts|, lenList)
    requires |counts| > 0 && epsilon >= 1.0
    ensures SelectEpsilonGreedy(counts, lenList, epsilon, theta, u, draw) == Choice(|counts|, lenList, draw)
  {
  }

  /** UCB with a zero exploration weight is greedy exploitation: once warm
      it returns exactly the slate epsilon-greedy returns when it exploits. */
  lemma ZeroBonusIsGreedy(counts: seq<nat>, lenList: nat, epsilon: real, theta: seq<real>, width: seq<real>,
                          u: real, draw: seq<nat>)
    requires |theta| == |counts| && |width| == |counts|
    requires 0.0 <= u < 1.0 && u > epsilon
    requires DrawFits(draw, |counts|, lenList)
    requires !Cold(counts)
    ensures SelectUcb(counts, lenList, 0.0, theta, width, draw)
            == SelectEpsilonGreedy(counts, lenList, epsilon, theta, u, draw)
  {
    assert UcbScores(theta, width, 0.0) == theta;
  }
}
